=== FILE: README.md ===
# Employee store model

A Dafny model of the employee store of the PRODUCT web client
(`PRODUCT-main/src/components/context/EmployeeContext.jsx`). That React
context keeps four pieces of state: the employee list, the team-lead list,
a loading flag and an error slot. Five operations fill or change them:

- `fetchEmployees` and `fetchTl` load the two lists.
- `addEmployee` creates an employee and `updateEmployee` edits one. Each
  sends a multipart form and, when the server rejects the request, alerts
  the first error message the server gave.
- `deleteEmployee` removes an employee.

The model has three parts.

- **Payloads.** `addEmployee` and `updateEmployee` each fill a `FormData`
  with a fixed sequence of `append` calls (module `FormPayloads`, class
  `FormData`). Each builder is proved against a function that describes
  the whole body. Lemmas then state, field by field, what `getAll` returns
  for every key, covering truthiness, `!= null` and the privileged-role
  test `[1, 2, 3, 4].includes(Number(role_id))`.
- **Server error message.** The "first error" expression (module
  `ServerErrors`) picks:
  - the first message of the first field under `errors`;
  - otherwise `message`;
  - otherwise "Something went wrong".

  It throws where JavaScript would throw.
- **State reconciliation.** The list callbacks `map` by id and `filter` by
  id (module `Reconcile`) are modelled as pure functions. The response
  handling of every operation (module `Responses`) is modelled the same
  way. The store itself is a class, `EmployeeContext.EmployeeStore`. Each
  method takes the server's response as a parameter, and its new state is
  tied to a step function (`AfterFetch`, `AfterFetchTl`, `AfterUpdate`,
  `AfterDelete`) whose properties are proved as lemmas.

JavaScript values are a datatype (module `JsValues`). The model defines
the coercions the store depends on: truthiness, `||`, `?.`, `.`, which
throws on `null` and `undefined`, `String(x)`, `Number(x)` and `===`.
Errors raised by the engine itself (a failed request, a body that is not
JSON, a property read of `null`) are kept by kind. Their texts are not
modelled.

Inputs that the real program gets from its environment are parameters of
the operations:

- the stored token, `Option<string>`, where `None` is `null`;
- the reply to each request: a network failure, or the `ok` flag and a
  body that parses as JSON or does not;
- the outcome of image compression: the compressed file, or `None` when
  compression fails.

Alerts shown and requests sent are recorded in two ghost logs,
`notices` and `requests`.

Some behaviour of the program is easy to misread. The model follows the
code in these places:

- A successful `fetchEmployees`, `fetchTl` or `addEmployee` does not clear
  `error`. Only a successful update or delete clears it.
- `addEmployee` does not check the token. A create without a token is
  still sent, and the refresh that follows stores the "Unauthorized" error.
- `addEmployee` and `updateEmployee` parse the body before they test the
  status. An ok reply that is not JSON therefore counts as a failure: the
  store answers false.
- A non-ok update whose body parses, and whose first error can be read,
  stores no error. It only alerts. A non-ok reply that is not JSON, or
  whose first error cannot be read (an empty `errors` object), stores and
  alerts that error.

## Model

| member | source | states |
|---|---|---|
| JsValues.NatToDecimalDigits | PRODUCT-main/src/components/context/EmployeeContext.jsx:94 | the decimal form `String` gives a natural number is all digits and reads back as that number |
| JsValues.NumberOfDecimalString | PRODUCT-main/src/components/context/EmployeeContext.jsx:94 | `Number(String(n)) === n` for every integer, so a role id given as a numeral string is recognised like the number |
| JsValues.NumberOfPrefixedNumeral | PRODUCT-main/src/components/context/EmployeeContext.jsx:94 | a binary, octal or hexadecimal numeral behind its `0b`, `0o` or `0x` prefix converts to its value, so `"0b1"` counts as privileged role 1; a sign in front of the prefix gives NaN |
| ServerErrors.FirstError | PRODUCT-main/src/components/context/EmployeeContext.jsx:117-119 | only the `errors` branch can throw, and only a TypeError; without a truthy `errors` the message is always truthy |
| ServerErrors.FirstErrorOfFieldErrors | PRODUCT-main/src/components/context/EmployeeContext.jsx:117-118 | with field errors whose first field lists messages, the message is the first of them |
| ServerErrors.FirstErrorWithoutFieldErrors | PRODUCT-main/src/components/context/EmployeeContext.jsx:119 | without field errors, the message is `message` when truthy, else "Something went wrong" |
| ServerErrors.FirstErrorOfEmptyErrors | PRODUCT-main/src/components/context/EmployeeContext.jsx:118 | an empty `errors` object is truthy, and reading its first message throws a TypeError |
| ServerErrors.FirstErrorOfEmptyMessages | PRODUCT-main/src/components/context/EmployeeContext.jsx:118 | a first field with an empty message list yields `undefined` as the message |
| FormPayloads.WireNameInjective | PRODUCT-main/src/components/context/EmployeeContext.jsx:79-184 | distinct field keys are distinct multipart field names |
| FormPayloads.FormData.constructor | PRODUCT-main/src/components/context/EmployeeContext.jsx:77 | a new form has no entries |
| FormPayloads.FormData.Append | PRODUCT-main/src/components/context/EmployeeContext.jsx:79 | `append` adds exactly one entry at the end: a File as itself, any other value as `String(value)` |
| FormPayloads.ValuesOfPush | PRODUCT-main/src/components/context/EmployeeContext.jsx:79 | appending an entry adds its value to the values of its own key and to no other key |
| FormPayloads.OrEmptyValues | PRODUCT-main/src/components/context/EmployeeContext.jsx:79-86 | in a run of distinct fields sent as their value or `""`, each key holds exactly its value or `""` when falsy, and no other key holds anything |
| FormPayloads.BuildCreateForm | PRODUCT-main/src/components/context/EmployeeContext.jsx:77-104 | the create form holds exactly the entries of `CreateEntries`, in order |
| FormPayloads.AppendRoleField | PRODUCT-main/src/components/context/EmployeeContext.jsx:88-92 | appends `role_id` when it is truthy, otherwise `roles` |
| FormPayloads.AppendTeamField | PRODUCT-main/src/components/context/EmployeeContext.jsx:94-100 | appends an empty `team_id` for a privileged role, else `team_id` when it is not nullish, else `team` |
| FormPayloads.CreateTextField | PRODUCT-main/src/components/context/EmployeeContext.jsx:79-86 | each of the eight text fields is sent exactly once, as its value or `""` when falsy |
| FormPayloads.CreateNoOtherKeys | PRODUCT-main/src/components/context/EmployeeContext.jsx:77-104 | the create form sends no `pm_id` and no `_method` |
| FormPayloads.CreatePrivilegedRoleClearsTeam | PRODUCT-main/src/components/context/EmployeeContext.jsx:94-95 | when `Number(role_id)` is 1 to 4, `team_id` is sent once as `""` and `team` is not sent, whatever they hold |
| FormPayloads.CreateRoleFields | PRODUCT-main/src/components/context/EmployeeContext.jsx:88-92 | `role_id` is sent exactly when it is truthy, and `roles` exactly when it is not |
| FormPayloads.CreateTeamFields | PRODUCT-main/src/components/context/EmployeeContext.jsx:96-100 | for any other role, `team_id` is sent whenever it is not nullish (0 and `""` included), and `team` exactly otherwise |
| FormPayloads.CreatePicture | PRODUCT-main/src/components/context/EmployeeContext.jsx:102-104 | the picture is sent, once and as the file, only when it is a File |
| FormPayloads.BuildUpdateForm | PRODUCT-main/src/components/context/EmployeeContext.jsx:153-184 | the update form holds exactly the fixed fields followed by the picture entries, in order |
| FormPayloads.BuildUpdateFields | PRODUCT-main/src/components/context/EmployeeContext.jsx:153-162 | the nine fixed appends produce exactly `UpdateFieldEntries`, in order |
| FormPayloads.AppendUpdatePicture | PRODUCT-main/src/components/context/EmployeeContext.jsx:164-184 | a File appends the compressed file, or the original when compression fails; `null` appends `""`; anything else appends nothing; the second `null` test is unreachable |
| FormPayloads.UpdateKeysSent | PRODUCT-main/src/components/context/EmployeeContext.jsx:154-184 | the update form's keys are always the nine fixed keys in order, followed by `profile_pic` only for a File or `null` picture |
| FormPayloads.UpdateFieldValues | PRODUCT-main/src/components/context/EmployeeContext.jsx:154-162 | `name` and `email` are sent as they are, `_method` as `PUT`, the six others as their value or `""` when falsy, and no other key is sent |
| FormPayloads.UpdateScalarFields | PRODUCT-main/src/components/context/EmployeeContext.jsx:154-162 | adding the picture changes no other field, and each fixed field has exactly one value |
| FormPayloads.UpdateZeroTeamIsEmpty | PRODUCT-main/src/components/context/EmployeeContext.jsx:159 | a `team_id` of 0 is sent as `""` |
| FormPayloads.UpdatePicture | PRODUCT-main/src/components/context/EmployeeContext.jsx:164-184 | `profile_pic` has one value for a File (compressed or original) or for `null` (`""`), and none otherwise |
| Reconcile.ReplaceById | PRODUCT-main/src/components/context/EmployeeContext.jsx:215-217 | the list keeps its length and order, and each entry whose `id` is `===` the given id becomes the new record while the others stay |
| Reconcile.RemoveById | PRODUCT-main/src/components/context/EmployeeContext.jsx:250 | the result is never longer, and holds exactly the entries whose `id` is not `===` the given id |
| Reconcile.ReplaceByIdIdempotent | PRODUCT-main/src/components/context/EmployeeContext.jsx:216 | replacing twice with the same record is replacing once |
| Reconcile.ReplaceByIdNoMatch | PRODUCT-main/src/components/context/EmployeeContext.jsx:216 | when no entry carries the id, the list is unchanged |
| Reconcile.RemoveByIdAppend | PRODUCT-main/src/components/context/EmployeeContext.jsx:250 | filtering a concatenation filters each part, so the survivors keep their order |
| Reconcile.RemoveByIdUnchanged | PRODUCT-main/src/components/context/EmployeeContext.jsx:250 | the delete leaves the list as it was if and only if no entry carries the id |
| Reconcile.RemoveByIdIdempotent | PRODUCT-main/src/components/context/EmployeeContext.jsx:250 | filtering twice is filtering once |
| Reconcile.RemoveAfterReplace | PRODUCT-main/src/components/context/EmployeeContext.jsx:215-250 | filtering after replacing with a record that keeps the id is filtering directly |
| Responses.RejectionMessage | PRODUCT-main/src/components/context/EmployeeContext.jsx:33-35 | the thrown error carries a message of the store's choosing exactly when the body is JSON and not nullish; otherwise it is a SyntaxError (no JSON) or a TypeError (`null`) |
| Responses.RejectionMessageText | PRODUCT-main/src/components/context/EmployeeContext.jsx:35 | a non-empty server text is the message; no truthy `message` gives the fallback |
| Responses.ListEmployees | PRODUCT-main/src/components/context/EmployeeContext.jsx:33-39 | a list is produced exactly for an ok reply with a JSON body that is not nullish, and that list is always truthy |
| Responses.ListEmployeesOfReply | PRODUCT-main/src/components/context/EmployeeContext.jsx:38-39 | an ok reply gives its `data` whenever that is truthy, whatever it holds, so a list is kept even when empty; a falsy `data` gives `[]` |
| Responses.ListEmployeesOfRejection | PRODUCT-main/src/components/context/EmployeeContext.jsx:33-35 | a non-ok reply fails with the message its error carries, "Failed to fetch employees" when the server's message is empty |
| Responses.TeamLeads | PRODUCT-main/src/components/context/EmployeeContext.jsx:57-71 | any failure or non-2xx status gives `[]`; an ok reply whose data is not nullish gives its `data` property as it is |
| Responses.TeamLeadsWithoutData | PRODUCT-main/src/components/context/EmployeeContext.jsx:66-67 | an ok reply whose body is not `null` but has no `data` (an object lacking it, an array, a number, a string), or whose body is not JSON, stores `undefined` as the team-lead list |
| Responses.TeamLeadsOfNullBody | PRODUCT-main/src/components/context/EmployeeContext.jsx:66-70 | an ok reply whose body is `null` makes the read throw and stores `[]` |
| Responses.SubmitVerdict | PRODUCT-main/src/components/context/EmployeeContext.jsx:114-128 | accepted exactly for an ok reply with a JSON body; a rejection carries the first error of the body; an engine error on a JSON body means a non-ok reply whose first error could not be read |
| Responses.VerdictOfPlainRejection | PRODUCT-main/src/components/context/EmployeeContext.jsx:116-119 | a rejection without field errors carries a truthy message: `message` or "Something went wrong" |
| Responses.VerdictOfFieldErrors | PRODUCT-main/src/components/context/EmployeeContext.jsx:116-118 | a rejection with field errors carries the first message of the first field |
| Responses.DeleteFailure | PRODUCT-main/src/components/context/EmployeeContext.jsx:245-248 | a delete fails exactly when the reply is missing or not ok, and a non-ok reply fails with its server message or "Failed to delete employee" when the body is JSON and not `null`, otherwise with the parse or read error |
| Responses.DeleteIgnoresBody | PRODUCT-main/src/components/context/EmployeeContext.jsx:245-250 | an ok delete reply succeeds whatever its body holds |
| EmployeeContext.AfterFetch | PRODUCT-main/src/components/context/EmployeeContext.jsx:15-47 | every path of `fetchEmployees` ends with loading off and leaves the team-lead list alone |
| EmployeeContext.AfterUpdate | PRODUCT-main/src/components/context/EmployeeContext.jsx:145-233 | `updateEmployee` never touches loading or the team-lead list |
| EmployeeContext.AfterDelete | PRODUCT-main/src/components/context/EmployeeContext.jsx:235-263 | `deleteEmployee` never touches loading or the team-lead list |
| EmployeeContext.FetchWithoutToken | PRODUCT-main/src/components/context/EmployeeContext.jsx:19-22 | without a token the error becomes "Unauthorized: No token found.", loading ends, the list is kept, and nothing is alerted |
| EmployeeContext.FetchListed | PRODUCT-main/src/components/context/EmployeeContext.jsx:38-39 | an ok reply installs its `data` as it is whenever that is truthy, and `[]` otherwise; it keeps the previous error and alerts nothing |
| EmployeeContext.FetchFailed | PRODUCT-main/src/components/context/EmployeeContext.jsx:33-46 | every failed fetch with a token (no reply, a non-ok reply, or an ok reply whose body is not JSON or is `null`) keeps the list, stores an error, and alerts that same error; a non-ok reply's error is its server message or the fallback when the body is JSON and not `null`, otherwise the parse or read error; an ok reply's is the engine's |
| EmployeeContext.FetchTlFailed | PRODUCT-main/src/components/context/EmployeeContext.jsx:68-71 | a failed team-lead fetch empties the team-lead list and changes nothing else |
| EmployeeContext.AddWithUnreadableReply | PRODUCT-main/src/components/context/EmployeeContext.jsx:114-139 | an ok reply whose body is not JSON makes `addEmployee` answer false without an alert |
| EmployeeContext.AddRejected | PRODUCT-main/src/components/context/EmployeeContext.jsx:116-127 | a rejected create without field errors alerts "Failed to Add" with `message` or "Something went wrong" |
| EmployeeContext.UpdateWithoutToken | PRODUCT-main/src/components/context/EmployeeContext.jsx:149-150 | without a token the error becomes "No auth token found in localStorage." and is alerted, and the list is kept |
| EmployeeContext.UpdateAccepted | PRODUCT-main/src/components/context/EmployeeContext.jsx:215-226 | an accepted update keeps the list's length and order, puts `result.data` in place of each entry with the id, keeps the others, and clears the error |
| EmployeeContext.UpdateRejected | PRODUCT-main/src/components/context/EmployeeContext.jsx:201-212 | a rejected update without field errors changes no state and alerts "Failed to Update" with `message` or "Something went wrong" |
| EmployeeContext.UpdateUnreadableRejection | PRODUCT-main/src/components/context/EmployeeContext.jsx:199-230 | a non-ok update whose body is not JSON stores and alerts the SyntaxError, and one whose `errors` is `{}` stores and alerts the TypeError; the list is kept |
| EmployeeContext.UpdateTwice | PRODUCT-main/src/components/context/EmployeeContext.jsx:215-217 | applying the same accepted update twice is applying it once |
| EmployeeContext.DeleteSucceeded | PRODUCT-main/src/components/context/EmployeeContext.jsx:250-257 | a successful delete keeps exactly the entries whose id differs, in order, and clears the error |
| EmployeeContext.DeleteFailed | PRODUCT-main/src/components/context/EmployeeContext.jsx:245-262 | a failed delete keeps the list, stores its error, and alerts that same error |
| EmployeeContext.DeleteTwice | PRODUCT-main/src/components/context/EmployeeContext.jsx:250 | deleting the same id again leaves the list as the first delete did |
| EmployeeContext.DeleteAfterUpdate | PRODUCT-main/src/components/context/EmployeeContext.jsx:215-250 | deleting a record just updated, when the new record keeps its id, leaves the list a direct delete would |
| EmployeeContext.EmployeeStore.constructor | PRODUCT-main/src/components/context/EmployeeContext.jsx:9-12 | both lists start empty, loading on, no error |
| EmployeeContext.EmployeeStore.FetchEmployees | PRODUCT-main/src/components/context/EmployeeContext.jsx:15-47 | the new state is `AfterFetch` of the old; a request is sent only with a token; failures alone are alerted |
| EmployeeContext.EmployeeStore.FetchTl | PRODUCT-main/src/components/context/EmployeeContext.jsx:53-72 | only the team-lead list changes, to `TeamLeads` of the reply; nothing is alerted |
| EmployeeContext.EmployeeStore.AddEmployee | PRODUCT-main/src/components/context/EmployeeContext.jsx:74-143 | answers true exactly for an ok reply with a JSON body; sends the create form, then always refreshes the list; the state is that refresh's |
| EmployeeContext.EmployeeStore.UpdateEmployee | PRODUCT-main/src/components/context/EmployeeContext.jsx:145-233 | answers true exactly with a token and an ok JSON reply; sends the update form only with a token; the new state is `AfterUpdate` of the old |
| EmployeeContext.EmployeeStore.DeleteEmployee | PRODUCT-main/src/components/context/EmployeeContext.jsx:235-263 | the new state is `AfterDelete` of the old; exactly one alert, success or error |

## Left out

- Transport, URLs and headers (lines 25-31, 58-64, 106-112, 191-197 and
  238-243) are left out. Each reply is an input, and the bearer header is
  not modelled.
- Reading the token from `localStorage` (lines 18, 76 and 147) is a
  parameter.
- `fetchTl` and `deleteEmployee` take no token, because they use it only in
  the request header (lines 55-64 and 237-243). A delete without a token is
  still sent.
- The image compression library (lines 166-170) is an oracle parameter. Its
  resizing is not modelled.
- Console logging is not modelled. The log at line 66 reads
  `response.data.data` before it is stored; the model keeps the effect of
  that read, which throws for a `null` body.
- `showAlert` is recorded as a ghost log of notices. Rendering is not
  modelled.
- React glue is not modelled: hooks, the initial `useEffect` fetch
  (lines 49-51), the context value, the exposed `setTl` and `useEmployees`
  (lines 265-291).
- Concurrency is not modelled. Every operation is atomic. The refresh
  `addEmployee` starts in `finally` without awaiting it runs after the
  create, with its own reply.
- Numbers are integers, and they are unbounded. JavaScript numbers are
  doubles: `String(1e21)` is "1e+21", and integers beyond 2^53 round. The
  model prints and compares every integer exactly.
- JsValues.StringToNumber: reads integers only: decimal with an optional
  sign, or binary, octal or hexadecimal behind its prefix. A decimal with a
  fraction or an exponent (`"1.0"`, `"1e0"`) and `Infinity` read as NaN in
  the model, so such a `role_id` is not taken as a privileged role.
- FormPayloads.BuildCreateForm: the input record is always an object. A
  `null` or `undefined` record makes the first read at line 79 throw, so
  `addEmployee` answers false without sending anything and still
  refreshes; this path is not modelled.
- FormPayloads.BuildUpdateForm: the input record is always an object. A
  `null` or `undefined` record makes the read at line 154 throw, and
  `updateEmployee` stores and alerts that TypeError; this path is not
  modelled.
- Parsed bodies are any `JsValue`. Nothing rules out an object with a
  repeated key, or `undefined` and `File` values, which JSON cannot hold.
  For a repeated key the model reads the first copy and lists every copy,
  where `JSON.parse` keeps one entry holding the last value.
- `===` on arrays and objects is reference identity, which a value model
  cannot see. Two of them never compare equal here.
- React state updaters are modelled only for a list slot:
  - a `map` or `filter` over a slot that is not an array throws at render
    time; the model leaves such a slot unchanged;
  - `emp.id` on a `null` entry, and `result.data` on a `null` body, throw
    there too; the model reads `undefined` instead.
- Strings are sequences of characters. UTF-16 code units and surrogate
  pairs are not told apart. Objects list their properties in a given
  order, not JavaScript's own enumeration order for integer-like keys.
- The input records are maps from the field names the store reads.
  Getters, prototypes and custom `toString` methods are not modelled, and
  objects always print as "[object Object]".
- `instanceof File` holds only for the model's `File` values. Other blobs
  count as ordinary values.
- The texts of errors raised by the engine (a failed `fetch`, a
  `SyntaxError` from `json()`, a `TypeError` from a property read) are
  kept by kind only.

=== FILE: employee_store.dfy ===
/** The employee store: the state `EmployeeProvider` keeps (`employees`, `tl`,
    `loading`, `error`) and the five operations that change it. Each server
    response is an input of the operation that receives it; so are the stored
    token and the outcome of image compression. What the store shows the
    user and what it sends the server are kept as ghost logs. */
module EmployeeContext {
  import opened JsValues
  import opened FormPayloads
  import opened ServerErrors
  import opened Reconcile
  import opened Responses

  datatype Variant = SuccessAlert | ErrorAlert

  /** One `showAlert` call. */
  datatype Notice = Notice(variant: Variant, title: string, message: Message)

  /** One request sent to the server, with the multipart body when it has one. */
  datatype Request =
    | ListUsers
    | ListTeamLeads(teamId: JsValue)
    | CreateUser(form: seq<Entry>)
    | UpdateUser(id: JsValue, form: seq<Entry>)
    | DeleteUser(id: JsValue)

  /** The four state slots. `employees` and `tl` hold whatever the server
      sent, which is a list when the server behaves. */
  datatype State = State(employees: JsValue, tl: JsValue, loading: bool, error: Option<Message>)

  /** Both lists empty, loading, no error. */
  const Initial: State := State(Arr([]), Arr([]), true, None)

  const NoTokenForFetch: string := "Unauthorized: No token found."
  const NoTokenForUpdate: string := "No auth token found in localStorage."
  const ErrorTitle: string := "Error"
  const SuccessTitle: string := "Success"

  /** `token` as read from storage is truthy: present and not empty. */
  predicate HasToken(token: Option<string>) {
    token.Some? && token.value != ""
  }

  /** `setEmployees(prev => prev.map(emp => emp.id === id ? updated : emp))`,
      for a list slot. */
  function ReplacedIn(slot: JsValue, id: JsValue, updated: JsValue): JsValue {
    if slot.Arr? then Arr(ReplaceById(slot.items, id, updated)) else slot
  }

  /** `setEmployees(prev => prev.filter(emp => emp.id !== id))`, for a list
      slot. */
  function RemovedFrom(slot: JsValue, id: JsValue): JsValue {
    if slot.Arr? then Arr(RemoveById(slot.items, id)) else slot
  }

  // ---------------------------------------------------------------------------
  // The state each operation leaves behind

  /** `fetchEmployees`: without a token the error is set and nothing is
      requested; with one, a listing replaces `employees` and leaves `error`
      as it was, and a failure sets `error` and keeps the list. Loading always
      ends. */
  function AfterFetch(s: State, token: Option<string>, response: Response): (r: State)
    ensures !r.loading && r.tl == s.tl
  {
    if !HasToken(token) then s.(error := Some(Given(Str(NoTokenForFetch))), loading := false)
    else
      match ListEmployees(response)
      case Listed(list) => s.(employees := list, loading := false)
      case Unlisted(message) => s.(error := Some(message), loading := false)
  }

  function FetchNotices(token: Option<string>, response: Response): seq<Notice> {
    if HasToken(token) && ListEmployees(response).Unlisted? then
      [Notice(ErrorAlert, ErrorTitle, ListEmployees(response).message)]
    else []
  }

  /** `fetchTl`: only the team-lead list changes. */
  function AfterFetchTl(s: State, response: Response): State {
    s.(tl := TeamLeads(response))
  }

  function AddNotices(verdict: Verdict): seq<Notice> {
    match verdict
    case Accepted(_) => [Notice(SuccessAlert, SuccessTitle, Given(Str("Employee added successfully")))]
    case Rejected(firstError) => [Notice(ErrorAlert, "Failed to Add", Given(firstError))]
    case Crashed(_) => []
  }

  /** `updateEmployee`: an accepted update swaps the record in and clears
      the error; a rejected one changes nothing; an error on the way (no
      token included) is stored. */
  function AfterUpdate(s: State, id: JsValue, token: Option<string>, response: Response): (r: State)
    ensures r.tl == s.tl && r.loading == s.loading
  {
    if !HasToken(token) then s.(error := Some(Given(Str(NoTokenForUpdate))))
    else
      match SubmitVerdict(response)
      case Accepted(result) => s.(employees := ReplacedIn(s.employees, id, Prop(result, "data")), error := None)
      case Rejected(_) => s
      case Crashed(kind) => s.(error := Some(Engine(kind)))
  }

  function UpdateNotices(token: Option<string>, response: Response): seq<Notice> {
    if !HasToken(token) then [Notice(ErrorAlert, ErrorTitle, Given(Str(NoTokenForUpdate)))]
    else
      match SubmitVerdict(response)
      case Accepted(_) => [Notice(SuccessAlert, SuccessTitle, Given(Str("Employee updated successfully")))]
      case Rejected(firstError) => [Notice(ErrorAlert, "Failed to Update", Given(firstError))]
      case Crashed(kind) => [Notice(ErrorAlert, ErrorTitle, Engine(kind))]
  }

  /** `deleteEmployee`: an ok reply filters the record out and clears the
      error; anything else stores the error. */
  function AfterDelete(s: State, id: JsValue, response: Response): (r: State)
    ensures r.tl == s.tl && r.loading == s.loading
  {
    match DeleteFailure(response)
    case None => s.(employees := RemovedFrom(s.employees, id), error := None)
    case Some(message) => s.(error := Some(message))
  }

  function DeleteNotices(response: Response): seq<Notice> {
    match DeleteFailure(response)
    case None => [Notice(SuccessAlert, SuccessTitle, Given(Str("Deleted Successfully")))]
    case Some(message) => [Notice(ErrorAlert, ErrorTitle, message)]
  }

  // ---------------------------------------------------------------------------
  // What the operations promise

  /** Without a token, `fetchEmployees` sets its error and ends loading, keeps
      the list, and alerts nobody. */
  lemma FetchWithoutToken(s: State, token: Option<string>, response: Response)
    requires !HasToken(token)
    ensures AfterFetch(s, token, response) == s.(error := Some(Given(Str(NoTokenForFetch))), loading := false)
    ensures FetchNotices(token, response) == []
  {
  }

  /** An ok reply carrying a list installs that list (an empty `[]` when
      `data` is missing or falsy), leaves the error as it was, and alerts
      nobody. */
  lemma FetchListed(s: State, token: Option<string>, v: JsValue)
    requires HasToken(token) && !Nullish(v)
    ensures AfterFetch(s, token, Reply(true, Json(v))).employees == Or(Prop(v, "data"), Arr([]))
    ensures Prop(v, "data").Arr? ==> AfterFetch(s, token, Reply(true, Json(v))).employees == Prop(v, "data")
    ensures !Truthy(Prop(v, "data")) ==> AfterFetch(s, token, Reply(true, Json(v))).employees == Arr([])
    ensures AfterFetch(s, token, Reply(true, Json(v))).error == s.error
    ensures FetchNotices(token, Reply(true, Json(v))) == []
  {
    ListEmployeesOfReply(v);
  }

  /** A failed fetch keeps the list and stores the message it alerts with:
      the server's message or "Failed to fetch employees" for a non-ok
      reply. An ok reply fails too when its body is not JSON or is `null`. */
  lemma FetchFailed(s: State, token: Option<string>, response: Response)
    requires HasToken(token) && ListEmployees(response).Unlisted?
    ensures AfterFetch(s, token, response).employees == s.employees
    ensures AfterFetch(s, token, response).error.Some?
    ensures FetchNotices(token, response) == [Notice(ErrorAlert, ErrorTitle, AfterFetch(s, token, response).error.value)]
    ensures response.Reply? && !response.ok ==>
      AfterFetch(s, token, response).error == Some(RejectionMessage(response.body, FetchFallback))
    ensures response.Reply? && response.ok ==> AfterFetch(s, token, response).error.value.Engine?
  {
  }

  /** A team-lead fetch that fails for any reason empties the team-lead
      list and changes nothing else. */
  lemma FetchTlFailed(s: State, response: Response)
    requires !(response.Reply? && response.ok)
    ensures AfterFetchTl(s, response) == s.(tl := Arr([]))
  {
  }

  /** `addEmployee` reads the body before it looks at the status, so an ok
      reply whose body is not JSON counts as a failure: nothing is alerted
      and the store answers false. */
  lemma AddWithUnreadableReply(raw: string)
    ensures !SubmitVerdict(Reply(true, NotJson(raw))).Accepted?
    ensures AddNotices(SubmitVerdict(Reply(true, NotJson(raw)))) == []
  {
  }

  /** A rejected create without field errors alerts "Failed to Add" with the
      server's message or the generic text. */
  lemma AddRejected(v: JsValue)
    requires !Truthy(Prop(v, "errors"))
    ensures AddNotices(SubmitVerdict(Reply(false, Json(v)))) ==
      [Notice(ErrorAlert, "Failed to Add", Given(Or(Prop(v, "message"), Str(GenericFailure))))]
  {
    VerdictOfPlainRejection(v);
  }

  /** Without a token, `updateEmployee` stores and alerts its own error and
      keeps the list. */
  lemma UpdateWithoutToken(s: State, id: JsValue, token: Option<string>, response: Response)
    requires !HasToken(token)
    ensures AfterUpdate(s, id, token, response) == s.(error := Some(Given(Str(NoTokenForUpdate))))
    ensures UpdateNotices(token, response) == [Notice(ErrorAlert, ErrorTitle, Given(Str(NoTokenForUpdate)))]
  {
  }

  /** An accepted update keeps the list's length and order, puts
      `result.data` in place of every entry with the given id, leaves every
      other entry as it was, and clears the error. */
  lemma UpdateAccepted(s: State, id: JsValue, token: Option<string>, v: JsValue, items: seq<JsValue>)
    requires HasToken(token) && s.employees == Arr(items)
    ensures AfterUpdate(s, id, token, Reply(true, Json(v))).employees.Arr?
    ensures |AfterUpdate(s, id, token, Reply(true, Json(v))).employees.items| == |items|
    ensures forall i :: 0 <= i < |items| ==>
      AfterUpdate(s, id, token, Reply(true, Json(v))).employees.items[i] ==
        (if Matches(items[i], id) then Prop(v, "data") else items[i])
    ensures AfterUpdate(s, id, token, Reply(true, Json(v))).error == None
  {
  }

  /** A rejected update without field errors changes no state and alerts
      "Failed to Update" with the server's message or the generic text. */
  lemma UpdateRejected(s: State, id: JsValue, token: Option<string>, v: JsValue)
    requires HasToken(token) && !Truthy(Prop(v, "errors"))
    ensures AfterUpdate(s, id, token, Reply(false, Json(v))) == s
    ensures UpdateNotices(token, Reply(false, Json(v))) ==
      [Notice(ErrorAlert, "Failed to Update", Given(Or(Prop(v, "message"), Str(GenericFailure))))]
  {
    VerdictOfPlainRejection(v);
  }

  /** A rejection the store cannot read is stored, not just alerted: a body
      that is not JSON fails the parse, and an empty `errors` object fails
      the read of its first message. The list is kept either way. */
  lemma UpdateUnreadableRejection(s: State, id: JsValue, token: Option<string>, raw: string, v: JsValue)
    requires HasToken(token) && Prop(v, "errors") == Obj([])
    ensures AfterUpdate(s, id, token, Reply(false, NotJson(raw))) == s.(error := Some(Engine(SyntaxError)))
    ensures UpdateNotices(token, Reply(false, NotJson(raw))) == [Notice(ErrorAlert, ErrorTitle, Engine(SyntaxError))]
    ensures AfterUpdate(s, id, token, Reply(false, Json(v))) == s.(error := Some(Engine(TypeError)))
    ensures UpdateNotices(token, Reply(false, Json(v))) == [Notice(ErrorAlert, ErrorTitle, Engine(TypeError))]
  {
    FirstErrorOfEmptyErrors(v);
  }

  /** Applying the same accepted update twice is applying it once. */
  lemma UpdateTwice(s: State, id: JsValue, token: Option<string>, v: JsValue)
    requires HasToken(token)
    ensures AfterUpdate(AfterUpdate(s, id, token, Reply(true, Json(v))), id, token, Reply(true, Json(v))) ==
      AfterUpdate(s, id, token, Reply(true, Json(v)))
  {
    if s.employees.Arr? {
      ReplaceByIdIdempotent(s.employees.items, id, Prop(v, "data"));
    }
  }

  /** A successful delete keeps exactly the entries whose id differs, and
      clears the error. */
  lemma DeleteSucceeded(s: State, id: JsValue, body: Body, items: seq<JsValue>)
    requires s.employees == Arr(items)
    ensures AfterDelete(s, id, Reply(true, body)).employees == Arr(RemoveById(items, id))
    ensures forall e :: e in AfterDelete(s, id, Reply(true, body)).employees.items <==> e in items && !Matches(e, id)
    ensures AfterDelete(s, id, Reply(true, body)).error == None
  {
  }

  /** A failed delete keeps the list and stores the message it alerts with. */
  lemma DeleteFailed(s: State, id: JsValue, response: Response)
    requires !(response.Reply? && response.ok)
    ensures AfterDelete(s, id, response).employees == s.employees
    ensures AfterDelete(s, id, response).error == DeleteFailure(response)
    ensures DeleteNotices(response) == [Notice(ErrorAlert, ErrorTitle, DeleteFailure(response).value)]
  {
  }

  /** Deleting an id a second time leaves the list as the first delete did. */
  lemma DeleteTwice(s: State, id: JsValue, first: Response, second: Response)
    requires first.Reply? && first.ok
    ensures AfterDelete(AfterDelete(s, id, first), id, second).employees == AfterDelete(s, id, first).employees
  {
    if s.employees.Arr? {
      RemoveByIdIdempotent(s.employees.items, id);
    }
  }

  /** Deleting a record just updated, when the server's record keeps its id,
      leaves the list a direct delete would. */
  lemma DeleteAfterUpdate(s: State, id: JsValue, token: Option<string>, v: JsValue, response: Response)
    requires HasToken(token) && Matches(Prop(v, "data"), id) && response.Reply? && response.ok
    ensures AfterDelete(AfterUpdate(s, id, token, Reply(true, Json(v))), id, response).employees ==
      AfterDelete(s, id, response).employees
  {
    if s.employees.Arr? {
      RemoveAfterReplace(s.employees.items, id, Prop(v, "data"));
    }
  }

  // ---------------------------------------------------------------------------
  // The store

  class EmployeeStore {
    var employees: JsValue
    var tl: JsValue
    var loading: bool
    var error: Option<Message>
    /** Every alert shown, in order. */
    ghost var notices: seq<Notice>
    /** Every request sent, in order. */
    ghost var requests: seq<Request>

    function Snapshot(): State
      reads this
    {
      State(employees, tl, loading, error)
    }

    constructor ()
      ensures Snapshot() == Initial
      ensures notices == [] && requests == []
    {
      employees := Arr([]);
      tl := Arr([]);
      loading := true;
      error := None;
      notices := [];
      requests := [];
    }

    method FetchEmployees(token: Option<string>, response: Response)
      modifies this
      ensures Snapshot() == AfterFetch(old(Snapshot()), token, response)
      ensures notices == old(notices) + FetchNotices(token, response)
      ensures requests == old(requests) + (if HasToken(token) then [ListUsers] else [])
    {
      if !HasToken(token) {
        error := Some(Given(Str(NoTokenForFetch)));
        loading := false;
        return;
      }
      requests := requests + [ListUsers];
      var failure: Option<Message> := None;
      match response {
        case NetworkError =>
          failure := Some(Engine(NetworkFailure));
        case Reply(ok, body) =>
          if !ok {
            failure := Some(RejectionMessage(body, FetchFallback));
          } else {
            var data := ParseJson(body);
            if data.Throw? {
              failure := Some(Engine(data.error));
            } else {
              var list := Member(data.value, "data");
              if list.Throw? {
                failure := Some(Engine(list.error));
              } else {
                employees := Or(list.value, Arr([]));
              }
            }
          }
      }
      if failure.Some? {
        error := failure;
        notices := notices + [Notice(ErrorAlert, ErrorTitle, failure.value)];
      }
      loading := false;
    }

    method FetchTl(teamId: JsValue, response: Response)
      modifies this
      ensures Snapshot() == AfterFetchTl(old(Snapshot()), response)
      ensures notices == old(notices)
      ensures requests == old(requests) + [ListTeamLeads(teamId)]
    {
      requests := requests + [ListTeamLeads(teamId)];
      if response.Reply? && response.ok {
        var leads := Member(AxiosData(response.body), "data");
        tl := if leads.Normal? then leads.value else Arr([]);
      } else {
        tl := Arr([]);
      }
    }

    /** Sends the create form, alerts on the reply, and then refreshes the
        list, which reads the token again and receives its own reply. */
    method AddEmployee(d: Record, token: Option<string>, response: Response, refresh: Response)
      returns (accepted: bool)
      modifies this
      ensures accepted <==> SubmitVerdict(response).Accepted?
      ensures Snapshot() == AfterFetch(old(Snapshot()), token, refresh)
      ensures notices == old(notices) + AddNotices(SubmitVerdict(response)) + FetchNotices(token, refresh)
      ensures requests == old(requests) + [CreateUser(CreateEntries(d))] + (if HasToken(token) then [ListUsers] else [])
    {
      var form := BuildCreateForm(d);
      requests := requests + [CreateUser(form.entries)];
      accepted := false;
      match response {
        case NetworkError =>
        case Reply(ok, body) =>
          var data := ParseJson(body);
          if data.Normal? {
            if !ok {
              var firstError := FirstError(data.value);
              if firstError.Normal? {
                notices := notices + [Notice(ErrorAlert, "Failed to Add", Given(firstError.value))];
              }
            } else {
              notices := notices + [Notice(SuccessAlert, SuccessTitle, Given(Str("Employee added successfully")))];
              accepted := true;
            }
          }
      }
      FetchEmployees(token, refresh);
    }

    method UpdateEmployee(id: JsValue, d: Record, token: Option<string>, compressed: Option<nat>, response: Response)
      returns (saved: bool)
      modifies this
      ensures saved <==> HasToken(token) && SubmitVerdict(response).Accepted?
      ensures Snapshot() == AfterUpdate(old(Snapshot()), id, token, response)
      ensures notices == old(notices) + UpdateNotices(token, response)
      ensures requests == old(requests) + (if HasToken(token) then [UpdateUser(id, UpdateEntries(d, compressed))] else [])
    {
      if !HasToken(token) {
        var message := Given(Str(NoTokenForUpdate));
        error := Some(message);
        notices := notices + [Notice(ErrorAlert, ErrorTitle, message)];
        return false;
      }
      var form := BuildUpdateForm(d, compressed);
      requests := requests + [UpdateUser(id, form.entries)];
      saved := false;
      var failure: Option<EngineError> := None;
      match response {
        case NetworkError =>
          failure := Some(NetworkFailure);
        case Reply(ok, body) =>
          var result := ParseJson(body);
          if result.Throw? {
            failure := Some(result.error);
          } else if !ok {
            var firstError := FirstError(result.value);
            if firstError.Throw? {
              failure := Some(firstError.error);
            } else {
              notices := notices + [Notice(ErrorAlert, "Failed to Update", Given(firstError.value))];
            }
          } else {
            employees := ReplacedIn(employees, id, Prop(result.value, "data"));
            notices := notices + [Notice(SuccessAlert, SuccessTitle, Given(Str("Employee updated successfully")))];
            error := None;
            saved := true;
          }
      }
      if failure.Some? {
        error := Some(Engine(failure.value));
        notices := notices + [Notice(ErrorAlert, ErrorTitle, Engine(failure.value))];
      }
    }

    method DeleteEmployee(id: JsValue, response: Response)
      modifies this
      ensures Snapshot() == AfterDelete(old(Snapshot()), id, response)
      ensures notices == old(notices) + DeleteNotices(response)
      ensures requests == old(requests) + [DeleteUser(id)]
    {
      requests := requests + [DeleteUser(id)];
      var failure: Option<Message> := None;
      match response {
        case NetworkError =>
          failure := Some(Engine(NetworkFailure));
        case Reply(ok, body) =>
          if !ok {
            failure := Some(RejectionMessage(body, DeleteFallback));
          } else {
            employees := RemovedFrom(employees, id);
            notices := notices + [Notice(SuccessAlert, SuccessTitle, Given(Str("Deleted Successfully")))];
            error := None;
          }
      }
      if failure.Some? {
        error := failure;
        notices := notices + [Notice(ErrorAlert, ErrorTitle, failure.value)];
      }
    }
  }
}

=== FILE: form_payloads.dfy ===
/** The multipart bodies `addEmployee` and `updateEmployee` send: a `FormData`
    buffer filled by a fixed sequence of `append` calls, with field values
    derived from a loosely typed input record. */
module FormPayloads {
  import opened JsValues

  /** What `FormData.append` stores: a File stays a blob, anything else is
      converted with `String(value)`. */
  datatype FormValue = Text(s: string) | Blob(handle: nat)

  /** The field names the store reads from its input records and writes into
      its forms. */
  datatype FieldKey =
    | Name | EmployeeId | Email | Password | Address | PhoneNum | EmergencyPhoneNum | TlId
    | RoleId | Roles | TeamId | Team | ProfilePic | PmId | MethodOverride

  /** The name a field carries on the wire and in the input record. */
  function WireName(k: FieldKey): string {
    match k
    case Name => "name"
    case EmployeeId => "employee_id"
    case Email => "email"
    case Password => "password"
    case Address => "address"
    case PhoneNum => "phone_num"
    case EmergencyPhoneNum => "emergency_phone_num"
    case TlId => "tl_id"
    case RoleId => "role_id"
    case Roles => "roles"
    case TeamId => "team_id"
    case Team => "team"
    case ProfilePic => "profile_pic"
    case PmId => "pm_id"
    case MethodOverride => "_method"
  }

  /** Distinct keys are distinct names on the wire, so a statement about
      one key of a form is a statement about one multipart field. */
  lemma WireNameInjective(a: FieldKey, b: FieldKey)
    ensures WireName(a) == WireName(b) ==> a == b
  {
  }

  type Entry = (FieldKey, FormValue)

  /** The input record (`employeeData`, `updatedData`), keyed by the same
      names: a missing property reads as `undefined`. */
  type Record = map<FieldKey, JsValue>

  function Field(d: Record, key: FieldKey): JsValue {
    if key in d then d[key] else Undef
  }

  function ToFormValue(v: JsValue): FormValue {
    if v.FileVal? then Blob(v.handle) else Text(ToJsString(v))
  }

  /** A multipart form body: its entries in the order they were appended. */
  class FormData {
    var entries: seq<Entry>

    constructor ()
      ensures entries == []
    {
      entries := [];
    }

    method Append(key: FieldKey, value: JsValue)
      modifies this
      ensures entries == old(entries) + [(key, ToFormValue(value))]
    {
      entries := entries + [(key, ToFormValue(value))];
    }
  }

  /** `formData.getAll(key)`: every value appended under `key`, in order. */
  function ValuesOf(entries: seq<Entry>, key: FieldKey): seq<FormValue> {
    ValuesFrom(entries, key, 0)
  }

  /** The values appended under `key` from position `i` on. */
  function ValuesFrom(entries: seq<Entry>, key: FieldKey, i: nat): seq<FormValue>
    decreases |entries| - i
  {
    if i >= |entries| then []
    else (if entries[i].0 == key then [entries[i].1] else []) + ValuesFrom(entries, key, i + 1)
  }

  /** The keys of a form, in order. */
  function Keys(entries: seq<Entry>): seq<FieldKey> {
    seq(|entries|, i requires 0 <= i < |entries| => entries[i].0)
  }

  predicate Distinct(keys: seq<FieldKey>) {
    forall i, j :: 0 <= i < j < |keys| ==> keys[i] != keys[j]
  }

  lemma {:induction false} ValuesFromAbsent(entries: seq<Entry>, key: FieldKey, i: nat)
    requires forall j :: i <= j < |entries| ==> entries[j].0 != key
    ensures ValuesFrom(entries, key, i) == []
    decreases |entries| - i
  {
    if i < |entries| {
      ValuesFromAbsent(entries, key, i + 1);
    }
  }

  /** A key that was never appended has no values. */
  lemma ValuesOfAbsent(entries: seq<Entry>, key: FieldKey)
    requires key !in Keys(entries)
    ensures ValuesOf(entries, key) == []
  {
    forall j | 0 <= j < |entries| ensures entries[j].0 != key {
      assert Keys(entries)[j] == entries[j].0;
    }
    ValuesFromAbsent(entries, key, 0);
  }

  lemma {:induction false} ValuesFromDistinct(entries: seq<Entry>, i: nat, from: nat)
    requires i < |entries| && Distinct(Keys(entries)) && from <= i
    ensures ValuesFrom(entries, entries[i].0, from) == [entries[i].1]
    decreases i - from
  {
    var key := entries[i].0;
    if from < i {
      assert Keys(entries)[from] != Keys(entries)[i];
      ValuesFromDistinct(entries, i, from + 1);
    } else {
      forall j | i + 1 <= j < |entries| ensures entries[j].0 != key {
        assert Keys(entries)[i] != Keys(entries)[j];
      }
      ValuesFromAbsent(entries, key, i + 1);
    }
  }

  /** In a form whose keys are distinct, each key has exactly the value
      appended under it. */
  lemma ValuesOfDistinct(entries: seq<Entry>, i: nat)
    requires i < |entries| && Distinct(Keys(entries))
    ensures ValuesOf(entries, entries[i].0) == [entries[i].1]
  {
    ValuesFromDistinct(entries, i, 0);
  }

  /** A one-entry form has its one value under its one key. */
  lemma ValuesOfSingle(e: Entry, key: FieldKey)
    ensures ValuesOf([e], key) == if e.0 == key then [e.1] else []
    ensures ValuesOf([], key) == []
  {
    assert ValuesFrom([e], key, 1) == [];
  }

  lemma {:induction false} ValuesFromAppend(a: seq<Entry>, b: seq<Entry>, key: FieldKey, i: nat)
    requires i <= |a| + |b|
    ensures ValuesFrom(a + b, key, i) ==
      if i <= |a| then ValuesFrom(a, key, i) + ValuesFrom(b, key, 0) else ValuesFrom(b, key, i - |a|)
    decreases |a| + |b| - i
  {
    if i < |a| + |b| {
      ValuesFromAppend(a, b, key, i + 1);
    }
  }

  /** Appending to a form appends to the values of each key. */
  lemma ValuesOfAppend(a: seq<Entry>, b: seq<Entry>, key: FieldKey)
    ensures ValuesOf(a + b, key) == ValuesOf(a, key) + ValuesOf(b, key)
  {
    ValuesFromAppend(a, b, key, 0);
  }

  /** A field sent as `value || ""`. */
  function OrEmptyEntry(d: Record, key: FieldKey): Entry {
    (key, ToFormValue(Or(Field(d, key), Str(""))))
  }

  /** Fields sent as `value || ""`, one entry each, in the order given. */
  function OrEmptyEntries(d: Record, keys: seq<FieldKey>): seq<Entry> {
    seq(|keys|, i requires 0 <= i < |keys| => OrEmptyEntry(d, keys[i]))
  }

  /** With distinct keys, each of them holds exactly its value or `""` when
      falsy, and no other key holds anything. */
  lemma OrEmptyValues(d: Record, keys: seq<FieldKey>, key: FieldKey)
    requires Distinct(keys)
    ensures ValuesOf(OrEmptyEntries(d, keys), key) ==
      if key in keys then [ToFormValue(Or(Field(d, key), Str("")))] else []
  {
    var t := OrEmptyEntries(d, keys);
    assert Keys(t) == keys;
    if key in keys {
      var i :| 0 <= i < |keys| && keys[i] == key;
      ValuesOfDistinct(t, i);
    } else {
      ValuesOfAbsent(t, key);
    }
  }

  /** Appending one entry adds its value to its own key only. */
  lemma ValuesOfPush(entries: seq<Entry>, e: Entry, key: FieldKey)
    ensures ValuesOf(entries + [e], key) == ValuesOf(entries, key) + (if e.0 == key then [e.1] else [])
  {
    ValuesOfAppend(entries, [e], key);
    ValuesOfSingle(e, key);
  }

  // ---------------------------------------------------------------------------
  // Create

  /** `[1, 2, 3, 4].includes(Number(role))` */
  predicate PrivilegedRole(role: JsValue) {
    ToNumber(role) in {Some(1), Some(2), Some(3), Some(4)}
  }

  /** The fields `addEmployee` always sends as `value || ""`, in order. */
  const CreateTextKeys: seq<FieldKey> :=
    [Name, EmployeeId, Email, Password, Address, PhoneNum, EmergencyPhoneNum, TlId]

  /** `role_id` when it is truthy, otherwise the raw `roles` value. */
  function RoleEntry(d: Record): Entry {
    if Truthy(Field(d, RoleId)) then (RoleId, ToFormValue(Field(d, RoleId)))
    else (Roles, ToFormValue(Field(d, Roles)))
  }

  /** An empty `team_id` for a privileged role; otherwise `team_id` when it is
      not null or undefined, else the raw `team` value. */
  function TeamEntry(d: Record): Entry {
    if PrivilegedRole(Field(d, RoleId)) then (TeamId, ToFormValue(Str("")))
    else if !Nullish(Field(d, TeamId)) then (TeamId, ToFormValue(Field(d, TeamId)))
    else (Team, ToFormValue(Field(d, Team)))
  }

  /** The picture is attached only when it is a File. */
  function CreatePictureEntries(d: Record): seq<Entry> {
    if Field(d, ProfilePic).FileVal? then [(ProfilePic, ToFormValue(Field(d, ProfilePic)))] else []
  }

  /** The body of the create request. */
  function CreateEntries(d: Record): seq<Entry> {
    OrEmptyEntries(d, CreateTextKeys) + [RoleEntry(d)] + [TeamEntry(d)] + CreatePictureEntries(d)
  }

  method BuildCreateForm(d: Record) returns (form: FormData)
    ensures fresh(form)
    ensures form.entries == CreateEntries(d)
  {
    form := new FormData();
    form.Append(Name, Or(Field(d, Name), Str("")));
    form.Append(EmployeeId, Or(Field(d, EmployeeId), Str("")));
    form.Append(Email, Or(Field(d, Email), Str("")));
    form.Append(Password, Or(Field(d, Password), Str("")));
    form.Append(Address, Or(Field(d, Address), Str("")));
    form.Append(PhoneNum, Or(Field(d, PhoneNum), Str("")));
    form.Append(EmergencyPhoneNum, Or(Field(d, EmergencyPhoneNum), Str("")));
    form.Append(TlId, Or(Field(d, TlId), Str("")));
    assert form.entries == OrEmptyEntries(d, CreateTextKeys);
    AppendRoleField(form, d);
    AppendTeamField(form, d);
    if Field(d, ProfilePic).FileVal? {
      form.Append(ProfilePic, Field(d, ProfilePic));
    }
  }

  method AppendRoleField(form: FormData, d: Record)
    modifies form
    ensures form.entries == old(form.entries) + [RoleEntry(d)]
  {
    if Truthy(Field(d, RoleId)) {
      form.Append(RoleId, Field(d, RoleId));
    } else {
      form.Append(Roles, Field(d, Roles));
    }
  }

  method AppendTeamField(form: FormData, d: Record)
    modifies form
    ensures form.entries == old(form.entries) + [TeamEntry(d)]
  {
    if PrivilegedRole(Field(d, RoleId)) {
      form.Append(TeamId, Str(""));
    } else if !Nullish(Field(d, TeamId)) {
      form.Append(TeamId, Field(d, TeamId));
    } else {
      form.Append(Team, Field(d, Team));
    }
  }

  /** The values of a key in the create body, part by part. */
  lemma CreateValuesSplit(d: Record, key: FieldKey)
    ensures ValuesOf(CreateEntries(d), key) ==
      ValuesOf(OrEmptyEntries(d, CreateTextKeys), key)
      + (if RoleEntry(d).0 == key then [RoleEntry(d).1] else [])
      + (if TeamEntry(d).0 == key then [TeamEntry(d).1] else [])
      + (if Field(d, ProfilePic).FileVal? && key == ProfilePic then [Blob(Field(d, ProfilePic).handle)] else [])
  {
    var t, r, m, p := OrEmptyEntries(d, CreateTextKeys), [RoleEntry(d)], [TeamEntry(d)], CreatePictureEntries(d);
    ValuesOfAppend(t + r + m, p, key);
    ValuesOfAppend(t + r, m, key);
    ValuesOfAppend(t, r, key);
    ValuesOfSingle(RoleEntry(d), key);
    ValuesOfSingle(TeamEntry(d), key);
    if Field(d, ProfilePic).FileVal? {
      ValuesOfSingle(p[0], key);
    }
  }

  lemma CreateTextKeysDistinct()
    ensures Distinct(CreateTextKeys)
  {
  }

  /** The text part of the create body holds each text field once, as its
      value or `""` when falsy, and no other key. */
  lemma CreateTextValues(d: Record, key: FieldKey)
    ensures ValuesOf(OrEmptyEntries(d, CreateTextKeys), key) ==
      if key in CreateTextKeys then [ToFormValue(Or(Field(d, key), Str("")))] else []
  {
    CreateTextKeysDistinct();
    OrEmptyValues(d, CreateTextKeys, key);
  }

  /** Each text field is sent exactly once, as its value or `""` when falsy. */
  lemma CreateTextField(d: Record, key: FieldKey)
    requires key in CreateTextKeys
    ensures ValuesOf(CreateEntries(d), key) == [ToFormValue(Or(Field(d, key), Str("")))]
  {
    CreateValuesSplit(d, key);
    CreateTextValues(d, key);
  }

  /** The create form never carries `pm_id` or `_method`: a create is a
      plain POST. */
  lemma CreateNoOtherKeys(d: Record)
    ensures ValuesOf(CreateEntries(d), PmId) == []
    ensures ValuesOf(CreateEntries(d), MethodOverride) == []
  {
    CreateValuesSplit(d, PmId);
    CreateTextValues(d, PmId);
    CreateValuesSplit(d, MethodOverride);
    CreateTextValues(d, MethodOverride);
  }

  /** A role that is numerically 1 to 4 sends an empty `team_id` and no `team`,
      whatever `team_id` and `team` hold. */
  lemma CreatePrivilegedRoleClearsTeam(d: Record)
    requires PrivilegedRole(Field(d, RoleId))
    ensures ValuesOf(CreateEntries(d), TeamId) == [Text("")]
    ensures ValuesOf(CreateEntries(d), Team) == []
  {
    CreateValuesSplit(d, TeamId);
    CreateTextValues(d, TeamId);
    CreateValuesSplit(d, Team);
    CreateTextValues(d, Team);
  }

  /** `role_id` is sent exactly when it is truthy, `roles` exactly otherwise. */
  lemma CreateRoleFields(d: Record)
    ensures ValuesOf(CreateEntries(d), RoleId) ==
      (if Truthy(Field(d, RoleId)) then [ToFormValue(Field(d, RoleId))] else [])
    ensures ValuesOf(CreateEntries(d), Roles) ==
      (if Truthy(Field(d, RoleId)) then [] else [ToFormValue(Field(d, Roles))])
  {
    CreateValuesSplit(d, RoleId);
    CreateTextValues(d, RoleId);
    CreateValuesSplit(d, Roles);
    CreateTextValues(d, Roles);
  }

  /** For any other role, `team_id` is sent whenever it is not null or
      undefined (so `0` and `""` are sent as they are), and `team` otherwise. */
  lemma CreateTeamFields(d: Record)
    requires !PrivilegedRole(Field(d, RoleId))
    ensures ValuesOf(CreateEntries(d), TeamId) ==
      (if Nullish(Field(d, TeamId)) then [] else [ToFormValue(Field(d, TeamId))])
    ensures ValuesOf(CreateEntries(d), Team) ==
      (if Nullish(Field(d, TeamId)) then [ToFormValue(Field(d, Team))] else [])
  {
    CreateValuesSplit(d, TeamId);
    CreateTextValues(d, TeamId);
    CreateValuesSplit(d, Team);
    CreateTextValues(d, Team);
  }

  /** Only a File picture is attached, as one blob; anything else is omitted. */
  lemma CreatePicture(d: Record)
    ensures ValuesOf(CreateEntries(d), ProfilePic) ==
      (if Field(d, ProfilePic).FileVal? then [Blob(Field(d, ProfilePic).handle)] else [])
  {
    CreateValuesSplit(d, ProfilePic);
    CreateTextValues(d, ProfilePic);
  }

  // ---------------------------------------------------------------------------
  // Update

  /** The fields `updateEmployee` always sends, in order. */
  const UpdateKeys: seq<FieldKey> :=
    [Name, Email, PhoneNum, EmergencyPhoneNum, Address, TeamId, RoleId, PmId, MethodOverride]

  /** The fields among them sent as `value || ""`; `name` and `email` are
      sent as they are, and `_method` is a constant. */
  predicate SentOrEmpty(key: FieldKey) {
    key.PhoneNum? || key.EmergencyPhoneNum? || key.Address? || key.TeamId? || key.RoleId? || key.PmId?
  }

  /** The fixed fields of the update request, in order. */
  function UpdateFieldEntries(d: Record): seq<Entry> {
    [(Name, ToFormValue(Field(d, Name)))] + [(Email, ToFormValue(Field(d, Email)))]
    + [OrEmptyEntry(d, PhoneNum)] + [OrEmptyEntry(d, EmergencyPhoneNum)] + [OrEmptyEntry(d, Address)]
    + [OrEmptyEntry(d, TeamId)] + [OrEmptyEntry(d, RoleId)] + [OrEmptyEntry(d, PmId)]
    + [(MethodOverride, ToFormValue(Str("PUT")))]
  }

  /** The `profile_pic` entries of the update body. `compressed` is what the
      image compression library yields for a File: the compressed file, or
      `None` when it fails, in which case the original is sent. A `null`
      picture asks the server to clear the image; anything else sends nothing. */
  function UpdatePictureEntries(pic: JsValue, compressed: Option<nat>): seq<Entry> {
    match pic
    case FileVal(h) => [(ProfilePic, Blob(if compressed.Some? then compressed.value else h))]
    case Null => [(ProfilePic, ToFormValue(Str("")))]
    case _ => []
  }

  /** The body of the update request. */
  function UpdateEntries(d: Record, compressed: Option<nat>): seq<Entry> {
    UpdateFieldEntries(d) + UpdatePictureEntries(Field(d, ProfilePic), compressed)
  }

  method BuildUpdateForm(d: Record, compressed: Option<nat>) returns (form: FormData)
    ensures fresh(form)
    ensures form.entries == UpdateEntries(d, compressed)
  {
    form := BuildUpdateFields(d);
    AppendUpdatePicture(form, Field(d, ProfilePic), compressed);
  }

  /** The fixed appends of `updateEmployee`, into a fresh form. */
  method BuildUpdateFields(d: Record) returns (form: FormData)
    ensures fresh(form)
    ensures form.entries == UpdateFieldEntries(d)
  {
    form := new FormData();
    form.Append(Name, Field(d, Name));
    form.Append(Email, Field(d, Email));
    form.Append(PhoneNum, Or(Field(d, PhoneNum), Str("")));
    form.Append(EmergencyPhoneNum, Or(Field(d, EmergencyPhoneNum), Str("")));
    form.Append(Address, Or(Field(d, Address), Str("")));
    form.Append(TeamId, Or(Field(d, TeamId), Str("")));
    form.Append(RoleId, Or(Field(d, RoleId), Str("")));
    form.Append(PmId, Or(Field(d, PmId), Str("")));
    form.Append(MethodOverride, Str("PUT"));
  }

  method AppendUpdatePicture(form: FormData, pic: JsValue, compressed: Option<nat>)
    modifies form
    ensures form.entries == old(form.entries) + UpdatePictureEntries(pic, compressed)
  {
    if pic.FileVal? {
      if compressed.Some? {
        form.Append(ProfilePic, FileVal(compressed.value));
      } else {
        form.Append(ProfilePic, pic);
      }
    } else if pic == Null {
      form.Append(ProfilePic, Str(""));
    } else if pic == Null {
      // the repeated `null` test can never be reached
      assert false;
    }
  }

  /** No field is ever omitted except `profile_pic`, which is sent for a File
      or `null` picture only. */
  lemma UpdateKeysSent(d: Record, compressed: Option<nat>)
    ensures Keys(UpdateEntries(d, compressed)) ==
      UpdateKeys + (if Field(d, ProfilePic).FileVal? || Field(d, ProfilePic).Null? then [ProfilePic] else [])
  {
  }

  /** The fixed part of the update body holds each of its fields once:
      `name` and `email` as they are, `_method` as `PUT`, the others as
      their value or `""` when falsy. */
  lemma UpdateFieldValues(d: Record, key: FieldKey)
    ensures ValuesOf(UpdateFieldEntries(d), key) ==
      if key == Name || key == Email then [ToFormValue(Field(d, key))]
      else if key == MethodOverride then [Text("PUT")]
      else if SentOrEmpty(key) then [ToFormValue(Or(Field(d, key), Str("")))]
      else []
  {
    var f := [(Name, ToFormValue(Field(d, Name)))];
    ValuesOfSingle(f[0], key);
    ValuesOfPush(f, (Email, ToFormValue(Field(d, Email))), key);
    f := f + [(Email, ToFormValue(Field(d, Email)))];
    ValuesOfPush(f, OrEmptyEntry(d, PhoneNum), key);
    f := f + [OrEmptyEntry(d, PhoneNum)];
    ValuesOfPush(f, OrEmptyEntry(d, EmergencyPhoneNum), key);
    f := f + [OrEmptyEntry(d, EmergencyPhoneNum)];
    ValuesOfPush(f, OrEmptyEntry(d, Address), key);
    f := f + [OrEmptyEntry(d, Address)];
    ValuesOfPush(f, OrEmptyEntry(d, TeamId), key);
    f := f + [OrEmptyEntry(d, TeamId)];
    ValuesOfPush(f, OrEmptyEntry(d, RoleId), key);
    f := f + [OrEmptyEntry(d, RoleId)];
    ValuesOfPush(f, OrEmptyEntry(d, PmId), key);
    f := f + [OrEmptyEntry(d, PmId)];
    ValuesOfPush(f, (MethodOverride, ToFormValue(Str("PUT"))), key);
  }

  /** The values of a key in the update body, part by part. */
  lemma UpdateValuesSplit(d: Record, compressed: Option<nat>, key: FieldKey)
    ensures ValuesOf(UpdateEntries(d, compressed), key) ==
      ValuesOf(UpdateFieldEntries(d), key)
      + (if key != ProfilePic then []
         else match Field(d, ProfilePic)
           case FileVal(h) => [Blob(if compressed.Some? then compressed.value else h)]
           case Null => [Text("")]
           case _ => [])
  {
    var p := UpdatePictureEntries(Field(d, ProfilePic), compressed);
    ValuesOfAppend(UpdateFieldEntries(d), p, key);
    if p != [] {
      ValuesOfSingle(p[0], key);
    } else {
      ValuesOfSingle((key, Text("")), key);
    }
  }

  /** Every field but `profile_pic` is sent exactly as the fixed part says. */
  lemma UpdateScalarFields(d: Record, compressed: Option<nat>, key: FieldKey)
    requires key != ProfilePic
    ensures ValuesOf(UpdateEntries(d, compressed), key) == ValuesOf(UpdateFieldEntries(d), key)
    ensures key in UpdateKeys ==> |ValuesOf(UpdateEntries(d, compressed), key)| == 1
  {
    UpdateValuesSplit(d, compressed, key);
    UpdateFieldValues(d, key);
  }

  /** A `team_id` of 0 is falsy, so the update sends it as `""`. */
  lemma UpdateZeroTeamIsEmpty(d: Record, compressed: Option<nat>)
    requires Field(d, TeamId) == Num(0)
    ensures ValuesOf(UpdateEntries(d, compressed), TeamId) == [Text("")]
  {
    UpdateValuesSplit(d, compressed, TeamId);
    UpdateFieldValues(d, TeamId);
  }

  /** A File picture gives one entry, the compressed file or, when compression
      fails, the original; `null` gives one empty entry; anything else none. */
  lemma UpdatePicture(d: Record, compressed: Option<nat>)
    ensures ValuesOf(UpdateEntries(d, compressed), ProfilePic) ==
      match Field(d, ProfilePic)
      case FileVal(h) => [Blob(if compressed.Some? then compressed.value else h)]
      case Null => [Text("")]
      case _ => []
  {
    UpdateValuesSplit(d, compressed, ProfilePic);
    UpdateFieldValues(d, ProfilePic);
  }
}

=== FILE: js_values.dfy ===
/** JavaScript values as the employee store handles them: parsed JSON bodies,
    the loosely typed input records of the UI, and the coercions the store's
    code relies on (truthiness, `||`, `?.`, `String(x)`, `Number(x)`, `===`). */
module JsValues {

  datatype Option<+T> = None | Some(value: T)

  /** A JavaScript value. Numbers are integers; a `File` is an opaque handle;
      an object lists its own enumerable properties in enumeration order. */
  datatype JsValue =
    | Undef
    | Null
    | Bool(b: bool)
    | Num(n: int)
    | Str(s: string)
    | FileVal(handle: nat)
    | Arr(items: seq<JsValue>)
    | Obj(props: seq<(string, JsValue)>)

  /** `v == null`, i.e. `null` or `undefined`. */
  predicate Nullish(v: JsValue) {
    v.Undef? || v.Null?
  }

  predicate Truthy(v: JsValue) {
    match v
    case Undef => false
    case Null => false
    case Bool(b) => b
    case Num(n) => n != 0
    case Str(s) => s != ""
    case _ => true
  }

  /** `v || fallback` */
  function Or(v: JsValue, fallback: JsValue): JsValue {
    if Truthy(v) then v else fallback
  }

  /** `v?.key`: an own property of an object, `undefined` for anything else. */
  function Prop(v: JsValue, key: string): JsValue {
    match v
    case Obj(props) => Lookup(props, key)
    case _ => Undef
  }

  function Lookup(props: seq<(string, JsValue)>, key: string): JsValue {
    if props == [] then Undef
    else if props[0].0 == key then props[0].1
    else Lookup(props[1..], key)
  }

  /** The runtime errors the engine itself raises in the store's code paths. */
  datatype EngineError = TypeError | SyntaxError | NetworkFailure

  /** How evaluating an expression ends: with a value or with a thrown error. */
  datatype Completion = Normal(value: JsValue) | Throw(error: EngineError)

  /** `v.key` without optional chaining: reading a property of `null` or
      `undefined` throws a TypeError. */
  function Member(v: JsValue, key: string): Completion {
    if Nullish(v) then Throw(TypeError) else Normal(Prop(v, key))
  }

  /** `x === y`. Arrays and objects compare by reference, which a value model
      cannot see, so two of them are never identical here. */
  predicate StrictEq(x: JsValue, y: JsValue) {
    match (x, y)
    case (Undef, Undef) => true
    case (Null, Null) => true
    case (Bool(a), Bool(b)) => a == b
    case (Num(a), Num(b)) => a == b
    case (Str(a), Str(b)) => a == b
    case (FileVal(a), FileVal(b)) => a == b
    case _ => false
  }

  // ---------------------------------------------------------------------------
  // String(x)

  function DigitChar(d: nat): (c: char)
    requires d < 10
    ensures '0' <= c <= '9' && c as int - '0' as int == d
  {
    ('0' as int + d) as char
  }

  /** The decimal numeral of a natural number, most significant digit first. */
  function NatToDecimal(n: nat): string {
    if n < 10 then [DigitChar(n)] else NatToDecimal(n / 10) + [DigitChar(n % 10)]
  }

  /** `String(n)` for an integer `n`. */
  function IntToDecimal(n: int): string {
    if n < 0 then "-" + NatToDecimal(-n) else NatToDecimal(n)
  }

  /** `parts.join(",")` */
  function JoinWithCommas(parts: seq<string>): string {
    if |parts| == 0 then ""
    else if |parts| == 1 then parts[0]
    else parts[0] + "," + JoinWithCommas(parts[1..])
  }

  /** `String(v)`: arrays join their elements with commas, writing `null`
      and `undefined` elements as empty strings. */
  function ToJsString(v: JsValue): string {
    match v
    case Undef => "undefined"
    case Null => "null"
    case Bool(b) => if b then "true" else "false"
    case Num(n) => IntToDecimal(n)
    case Str(s) => s
    case FileVal(_) => "[object File]"
    case Arr(items) =>
      JoinWithCommas(seq(|items|, i requires 0 <= i < |items| =>
        if Nullish(items[i]) then "" else ToJsString(items[i])))
    case Obj(_) => "[object Object]"
  }

  // ---------------------------------------------------------------------------
  // Number(x)

  /** The characters JavaScript strips from both ends before reading a
      numeric string: WhiteSpace and LineTerminator. */
  predicate IsJsSpace(c: char) {
    c == '\t' || c == '\n' || c == '\r' || c == ' '
    || c as int == 0x0B || c as int == 0x0C || c as int == 0xA0
    || c as int == 0x1680 || (0x2000 <= c as int <= 0x200A)
    || c as int == 0x2028 || c as int == 0x2029 || c as int == 0x202F
    || c as int == 0x205F || c as int == 0x3000 || c as int == 0xFEFF
  }

  function TrimStart(s: string): string {
    if s != [] && IsJsSpace(s[0]) then TrimStart(s[1..]) else s
  }

  function TrimEnd(s: string): string {
    if s != [] && IsJsSpace(s[|s| - 1]) then TrimEnd(s[..|s| - 1]) else s
  }

  /** The value of `c` as a digit: 0-9, then a-f or A-F for 10-15. Any other
      character gets 16, a digit in none of the radixes `Number` reads. */
  function DigitValue(c: char): nat {
    if '0' <= c <= '9' then c as int - '0' as int
    else if 'a' <= c <= 'f' then c as int - 'a' as int + 10
    else if 'A' <= c <= 'F' then c as int - 'A' as int + 10
    else 16
  }

  predicate InRadix(s: string, radix: nat) {
    forall i :: 0 <= i < |s| ==> DigitValue(s[i]) < radix
  }

  /** A non-empty numeral in the given radix. */
  predicate IsNumeral(s: string, radix: nat) {
    |s| > 0 && InRadix(s, radix)
  }

  /** The value of a numeral, most significant digit first. */
  function NumeralValue(s: string, radix: nat): nat
    requires InRadix(s, radix)
  {
    if s == [] then 0
    else NumeralValue(s[..|s| - 1], radix) * radix + DigitValue(s[|s| - 1])
  }

  /** The radix a `0b`, `0o` or `0x` prefix names (either case), or 0 for
      any other second character. */
  function PrefixRadix(c: char): nat {
    if c == 'b' || c == 'B' then 2
    else if c == 'o' || c == 'O' then 8
    else if c == 'x' || c == 'X' then 16
    else 0
  }

  /** `Number(s)` for a string, as an integer; `None` stands for NaN. An empty
      or blank string is 0. Otherwise, once white space is trimmed from both
      ends, the string is a decimal integer with an optional sign, or an
      unsigned binary, octal or hexadecimal numeral behind its prefix. */
  function StringToNumber(s: string): Option<int> {
    var t := TrimEnd(TrimStart(s));
    if t == "" then Some(0)
    else if IsNumeral(t, 10) then Some(NumeralValue(t, 10))
    else if t[0] == '-' && IsNumeral(t[1..], 10) then Some(-(NumeralValue(t[1..], 10) as int))
    else if t[0] == '+' && IsNumeral(t[1..], 10) then Some(NumeralValue(t[1..], 10))
    else if |t| > 2 && t[0] == '0' && PrefixRadix(t[1]) > 0 && IsNumeral(t[2..], PrefixRadix(t[1])) then
      Some(NumeralValue(t[2..], PrefixRadix(t[1])))
    else None
  }

  /** `Number(v)`; `None` stands for NaN. An array converts through its
      string form, as JavaScript does. */
  function ToNumber(v: JsValue): Option<int> {
    match v
    case Undef => None
    case Null => Some(0)
    case Bool(b) => Some(if b then 1 else 0)
    case Num(n) => Some(n)
    case Str(s) => StringToNumber(s)
    case FileVal(_) => None
    case Arr(_) => StringToNumber(ToJsString(v))
    case Obj(_) => None
  }

  lemma {:induction false} NatToDecimalDigits(n: nat)
    ensures IsNumeral(NatToDecimal(n), 10)
    ensures NumeralValue(NatToDecimal(n), 10) == n
  {
    if n >= 10 {
      NatToDecimalDigits(n / 10);
      var s := NatToDecimal(n);
      assert s[..|s| - 1] == NatToDecimal(n / 10);
    }
  }

  /** Trimming leaves a string that neither starts nor ends with white space
      as it is. */
  lemma TrimUnpadded(s: string)
    requires s != [] && !IsJsSpace(s[0]) && !IsJsSpace(s[|s| - 1])
    ensures TrimEnd(TrimStart(s)) == s
  {
  }

  /** `Number(String(n)) === n` for every integer `n`. */
  lemma NumberOfDecimalString(n: int)
    ensures StringToNumber(IntToDecimal(n)) == Some(n)
  {
    var digits := NatToDecimal(if n < 0 then -n else n);
    NatToDecimalDigits(if n < 0 then -n else n);
    var s := IntToDecimal(n);
    TrimUnpadded(s);
    if n < 0 {
      assert s[1..] == digits;
      assert !IsNumeral(s, 10) by {
        assert s[0] == '-';
      }
    }
  }

  /** A binary, octal or hexadecimal numeral behind its prefix reads as its
      value, so `Number("0b1") === 1`; with a sign in front it is NaN. */
  lemma NumberOfPrefixedNumeral(c: char, digits: string)
    requires PrefixRadix(c) > 0 && IsNumeral(digits, PrefixRadix(c))
    ensures StringToNumber(['0', c] + digits) == Some(NumeralValue(digits, PrefixRadix(c)))
    ensures StringToNumber(['-', '0', c] + digits) == None
    ensures StringToNumber(['+', '0', c] + digits) == None
  {
    var t := ['0', c] + digits;
    assert t[2..] == digits;
    assert DigitValue(digits[|digits| - 1]) < 16;
    TrimUnpadded(t);
    assert !IsNumeral(t, 10) by {
      assert DigitValue(t[1]) >= 10;
    }
    var signed := ['-'] + t;
    assert signed == ['-', '0', c] + digits;
    assert signed[1..] == t;
    TrimUnpadded(signed);
    assert !IsNumeral(signed, 10) by {
      assert DigitValue(signed[0]) == 16;
    }
    var plus := ['+'] + t;
    assert plus == ['+', '0', c] + digits;
    assert plus[1..] == t;
    TrimUnpadded(plus);
    assert !IsNumeral(plus, 10) by {
      assert DigitValue(plus[0]) == 16;
    }
  }
}

=== FILE: reconcile.dfy ===
/** How the store merges the outcome of a successful update or delete into
    its cached employee list: `prev.map(emp => emp.id === id ? updated : emp)`
    and `prev.filter(emp => emp.id !== id)`. */
module Reconcile {
  import opened JsValues

  /** `emp.id === id` */
  predicate Matches(emp: JsValue, id: JsValue) {
    StrictEq(Prop(emp, "id"), id)
  }

  /** The list after a successful update: the same length and order, every
      entry with the given id replaced by the server's record, every other
      entry unchanged. */
  function ReplaceById(list: seq<JsValue>, id: JsValue, updated: JsValue): (r: seq<JsValue>)
    ensures |r| == |list|
    ensures forall i :: 0 <= i < |list| ==> r[i] == (if Matches(list[i], id) then updated else list[i])
  {
    if list == [] then []
    else [if Matches(list[0], id) then updated else list[0]] + ReplaceById(list[1..], id, updated)
  }

  /** The list after a successful delete: the entries whose id differs, in
      their original order. */
  function RemoveById(list: seq<JsValue>, id: JsValue): (r: seq<JsValue>)
    ensures |r| <= |list|
    ensures forall e :: e in r <==> e in list && !Matches(e, id)
  {
    if list == [] then []
    else (if Matches(list[0], id) then [] else [list[0]]) + RemoveById(list[1..], id)
  }

  /** Replaying an update changes nothing: the replaced entries already hold
      the server's record, and the others still do not match. */
  lemma {:induction false} ReplaceByIdIdempotent(list: seq<JsValue>, id: JsValue, updated: JsValue)
    ensures ReplaceById(ReplaceById(list, id, updated), id, updated) == ReplaceById(list, id, updated)
  {
    var once := ReplaceById(list, id, updated);
    var twice := ReplaceById(once, id, updated);
    forall i | 0 <= i < |list| ensures twice[i] == once[i] {
    }
  }

  /** An update for an id no entry carries leaves the list as it was. */
  lemma ReplaceByIdNoMatch(list: seq<JsValue>, id: JsValue, updated: JsValue)
    requires forall e :: e in list ==> !Matches(e, id)
    ensures ReplaceById(list, id, updated) == list
  {
    var r := ReplaceById(list, id, updated);
    forall i | 0 <= i < |list| ensures r[i] == list[i] {
      assert list[i] in list;
    }
  }

  /** Deleting filters each part of a list separately, so the survivors keep
      their relative order. */
  lemma {:induction false} RemoveByIdAppend(a: seq<JsValue>, b: seq<JsValue>, id: JsValue)
    ensures RemoveById(a + b, id) == RemoveById(a, id) + RemoveById(b, id)
  {
    if a != [] {
      var head := if Matches(a[0], id) then [] else [a[0]];
      assert (a + b)[0] == a[0];
      assert (a + b)[1..] == a[1..] + b;
      calc {
        RemoveById(a + b, id);
        head + RemoveById(a[1..] + b, id);
        { RemoveByIdAppend(a[1..], b, id); }
        head + (RemoveById(a[1..], id) + RemoveById(b, id));
        (head + RemoveById(a[1..], id)) + RemoveById(b, id);
        RemoveById(a, id) + RemoveById(b, id);
      }
    } else {
      assert a + b == b;
    }
  }

  /** Deleting an id no entry carries leaves the list as it was, and a
      delete that leaves the list as it was found no entry with that id. */
  lemma {:induction false} RemoveByIdUnchanged(list: seq<JsValue>, id: JsValue)
    ensures RemoveById(list, id) == list <==> forall e :: e in list ==> !Matches(e, id)
  {
    if list != [] {
      RemoveByIdUnchanged(list[1..], id);
      if Matches(list[0], id) {
        assert |RemoveById(list, id)| < |list|;
      } else {
        assert forall e :: e in list <==> e == list[0] || e in list[1..];
      }
    }
  }

  /** Deleting twice is deleting once. */
  lemma RemoveByIdIdempotent(list: seq<JsValue>, id: JsValue)
    ensures RemoveById(RemoveById(list, id), id) == RemoveById(list, id)
  {
    RemoveByIdUnchanged(RemoveById(list, id), id);
  }

  /** Deleting a record after updating it, when the server's record keeps
      the id, leaves the same list as deleting it directly. */
  lemma {:induction false} RemoveAfterReplace(list: seq<JsValue>, id: JsValue, updated: JsValue)
    requires Matches(updated, id)
    ensures RemoveById(ReplaceById(list, id, updated), id) == RemoveById(list, id)
  {
    if list != [] {
      var r := ReplaceById(list, id, updated);
      assert r == [r[0]] + ReplaceById(list[1..], id, updated);
      RemoveAfterReplace(list[1..], id, updated);
    }
  }
}

=== FILE: responses.dfy ===
/** How the store reads a server reply. A reply is its `ok` flag and its
    body, which `response.json()` either parses or rejects; a request that
    never gets a reply is a network failure. Each function here is the
    outcome of one operation's response handling, errors included. */
module Responses {
  import opened JsValues
  import opened ServerErrors

  datatype Body = Json(value: JsValue) | NotJson(raw: string)

  datatype Response = NetworkError | Reply(ok: bool, body: Body)

  /** The `message` of a caught error, or the message of an alert: a value
      the store chose, or the text of an error the engine raised itself,
      which is kept abstract. */
  datatype Message = Given(v: JsValue) | Engine(kind: EngineError)

  const FetchFallback: string := "Failed to fetch employees"
  const DeleteFallback: string := "Failed to delete employee"

  /** `await response.json()`: a body that is not JSON throws a SyntaxError. */
  function ParseJson(body: Body): Completion {
    match body
    case Json(v) => Normal(v)
    case NotJson(_) => Throw(SyntaxError)
  }

  /** `new Error(x).message`: the string form of `x`. */
  function ErrorText(x: JsValue): Message {
    Given(Str(ToJsString(x)))
  }

  /** The message of the error `fetchEmployees` and `deleteEmployee` raise on
      a non-ok reply: `throw new Error(errorData.message || fallback)` once the
      body is parsed. A body that is not JSON fails the parse instead, and a
      `null` body fails the read of `message`. */
  function RejectionMessage(body: Body, fallback: string): (m: Message)
    ensures m.Given? <==> body.Json? && !Nullish(body.value)
    ensures m.Engine? ==> m.kind == (if body.Json? then TypeError else SyntaxError)
  {
    match ParseJson(body)
    case Throw(e) => Engine(e)
    case Normal(errorData) =>
      match Member(errorData, "message")
      case Throw(e) => Engine(e)
      case Normal(text) => ErrorText(Or(text, Str(fallback)))
  }

  /** A server that explains itself with a non-empty text has that text
      shown; one that gives no truthy `message` gets the fallback. */
  lemma RejectionMessageText(v: JsValue, fallback: string)
    requires !Nullish(v)
    ensures Prop(v, "message").Str? && Prop(v, "message").s != "" ==>
      RejectionMessage(Json(v), fallback) == Given(Prop(v, "message"))
    ensures !Truthy(Prop(v, "message")) ==> RejectionMessage(Json(v), fallback) == Given(Str(fallback))
  {
  }

  // ---------------------------------------------------------------------------
  // fetchEmployees

  /** What a list fetch with a token yields: the new list, or the message of
      the error it stops at. */
  datatype Listing = Listed(list: JsValue) | Unlisted(message: Message)

  /** A non-ok reply fails with the server's message or the fallback; an ok
      reply yields `data.data || []`, unless its body is not JSON or is
      `null`. */
  function ListEmployees(response: Response): (r: Listing)
    ensures r.Listed? <==> response.Reply? && response.ok && response.body.Json? && !Nullish(response.body.value)
    ensures r.Listed? ==> Truthy(r.list)
  {
    match response
    case NetworkError => Unlisted(Engine(NetworkFailure))
    case Reply(ok, body) =>
      if !ok then Unlisted(RejectionMessage(body, FetchFallback))
      else
        match ParseJson(body)
        case Throw(e) => Unlisted(Engine(e))
        case Normal(data) =>
          match Member(data, "data")
          case Throw(e) => Unlisted(Engine(e))
          case Normal(list) => Listed(Or(list, Arr([])))
  }

  /** An ok reply yields its `data` when truthy, whatever it is: a list is
      kept even when empty, and an ok reply without a truthy `data` yields
      the empty list. */
  lemma ListEmployeesOfReply(v: JsValue)
    requires !Nullish(v)
    ensures ListEmployees(Reply(true, Json(v))) == Listed(Or(Prop(v, "data"), Arr([])))
    ensures Prop(v, "data").Arr? ==> ListEmployees(Reply(true, Json(v))) == Listed(Prop(v, "data"))
    ensures !Truthy(Prop(v, "data")) ==> ListEmployees(Reply(true, Json(v))) == Listed(Arr([]))
  {
  }

  /** A non-ok reply fails with the message of the error it raises. */
  lemma ListEmployeesOfRejection(body: Body)
    ensures ListEmployees(Reply(false, body)) == Unlisted(RejectionMessage(body, FetchFallback))
    ensures body.Json? && Prop(body.value, "message") == Str("") ==>
      ListEmployees(Reply(false, body)) == Unlisted(Given(Str(FetchFallback)))
  {
  }

  // ---------------------------------------------------------------------------
  // fetchTl

  /** What axios hands back as `response.data`: the parsed body, or the raw
      text when it does not parse. */
  function AxiosData(body: Body): JsValue {
    match body
    case Json(v) => v
    case NotJson(raw) => Str(raw)
  }

  /** The team-lead list after `fetchTl`: `response.data.data` on a 2xx
      reply, and `[]` whenever axios rejects (a failed request or a non-2xx
      status) or the read of `.data` throws. */
  function TeamLeads(response: Response): (r: JsValue)
    ensures !(response.Reply? && response.ok) ==> r == Arr([])
    ensures response.Reply? && response.ok && !Nullish(AxiosData(response.body)) ==>
      r == Prop(AxiosData(response.body), "data")
  {
    match response
    case NetworkError => Arr([])
    case Reply(ok, body) =>
      if !ok then Arr([])
      else
        match Member(AxiosData(body), "data")
        case Throw(_) => Arr([])
        case Normal(leads) => leads
  }

  /** The list is stored as it comes, even when it is missing: an ok reply
      without `data` (an object lacking it, or an array, number, string or
      boolean) leaves `undefined` where a list was, and a body that is not
      JSON does too. */
  lemma TeamLeadsWithoutData(body: Body)
    requires body.NotJson? || (body.Json? && !Nullish(body.value) && Prop(body.value, "data") == Undef)
    ensures TeamLeads(Reply(true, body)) == Undef
  {
  }

  /** An ok reply whose body is JSON `null` makes the read throw, which the
      handler turns into the empty list. */
  lemma TeamLeadsOfNullBody()
    ensures TeamLeads(Reply(true, Json(Null))) == Arr([])
  {
  }

  // ---------------------------------------------------------------------------
  // addEmployee and updateEmployee

  /** How a create or update request ends: accepted with the parsed body,
      rejected with the first error message, or stopped by an error the
      engine raised (a failed request, a body that is not JSON, or a first
      error that cannot be read). */
  datatype Verdict = Accepted(result: JsValue) | Rejected(firstError: JsValue) | Crashed(kind: EngineError)

  function SubmitVerdict(response: Response): (r: Verdict)
    ensures r.Accepted? <==> response.Reply? && response.ok && response.body.Json?
    ensures r.Accepted? ==> r.result == response.body.value
    ensures r.Rejected? ==>
      response.Reply? && !response.ok && response.body.Json? && FirstError(response.body.value) == Normal(r.firstError)
    ensures r.Crashed? && response.Reply? && response.body.Json? ==> !response.ok && FirstError(response.body.value).Throw?
  {
    match response
    case NetworkError => Crashed(NetworkFailure)
    case Reply(ok, body) =>
      match ParseJson(body)
      case Throw(e) => Crashed(e)
      case Normal(data) =>
        if ok then Accepted(data)
        else
          match FirstError(data)
          case Throw(e) => Crashed(e)
          case Normal(message) => Rejected(message)
  }

  /** A rejection without field errors is always shown with a truthy
      message: the server's `message`, or the generic text. */
  lemma VerdictOfPlainRejection(v: JsValue)
    requires !Truthy(Prop(v, "errors"))
    ensures SubmitVerdict(Reply(false, Json(v))) == Rejected(Or(Prop(v, "message"), Str(GenericFailure)))
    ensures Truthy(SubmitVerdict(Reply(false, Json(v))).firstError)
  {
    FirstErrorWithoutFieldErrors(v);
  }

  /** A rejection with field errors is shown with the first message of the
      first field. */
  lemma VerdictOfFieldErrors(v: JsValue, field: string, messages: seq<JsValue>, others: seq<(string, JsValue)>)
    requires Prop(v, "errors") == Obj([(field, Arr(messages))] + others)
    requires |messages| > 0
    ensures SubmitVerdict(Reply(false, Json(v))) == Rejected(messages[0])
  {
    FirstErrorOfFieldErrors(v, field, messages, others);
  }

  // ---------------------------------------------------------------------------
  // deleteEmployee

  /** The error a delete stops at, if any: none exactly for an ok reply,
      whose body is never read. */
  function DeleteFailure(response: Response): (r: Option<Message>)
    ensures r.None? <==> response.Reply? && response.ok
    ensures response.Reply? && !response.ok ==> r == Some(RejectionMessage(response.body, DeleteFallback))
  {
    match response
    case NetworkError => Some(Engine(NetworkFailure))
    case Reply(ok, body) => if ok then None else Some(RejectionMessage(body, DeleteFallback))
  }

  /** An ok reply deletes whatever its body holds, even text that is not
      JSON. */
  lemma DeleteIgnoresBody(body: Body)
    ensures DeleteFailure(Reply(true, body)) == None
  {
  }
}

=== FILE: server_errors.dfy ===
/** The message `addEmployee` and `updateEmployee` show when the server
    rejects a request: the first message of the first field in `errors`, else
    the top-level `message`, else a generic text. */
module ServerErrors {
  import opened JsValues

  const GenericFailure: string := "Something went wrong"

  /** `Object.values(v)` for a truthy value: an object's property values, an
      array's elements, a string's characters; numbers, booleans and files have
      no own enumerable properties. */
  function ObjectValues(v: JsValue): seq<JsValue> {
    match v
    case Obj(props) => seq(|props|, i requires 0 <= i < |props| => props[i].1)
    case Arr(items) => items
    case Str(s) => seq(|s|, i requires 0 <= i < |s| => Str([s[i]]))
    case _ => []
  }

  /** `v[0]`: indexing `null` or `undefined` throws a TypeError. */
  function ElementZero(v: JsValue): Completion {
    match v
    case Undef => Throw(TypeError)
    case Null => Throw(TypeError)
    case Arr(items) => Normal(if |items| > 0 then items[0] else Undef)
    case Str(s) => Normal(if |s| > 0 then Str([s[0]]) else Undef)
    case Obj(_) => Normal(Prop(v, "0"))
    case _ => Normal(Undef)
  }

  /** `body?.errors ? Object.values(body.errors)[0][0] : body?.message || "Something went wrong"`.
      Only the `errors` path can throw, and only a TypeError (an empty
      `errors` object, or a first entry that is null); without `errors` the
      result is always a truthy message. */
  function FirstError(body: JsValue): (r: Completion)
    ensures r.Throw? ==> r.error == TypeError && Truthy(Prop(body, "errors"))
    ensures !Truthy(Prop(body, "errors")) ==> r.Normal? && Truthy(r.value)
  {
    var errors := Prop(body, "errors");
    if Truthy(errors) then
      var values := ObjectValues(errors);
      ElementZero(if |values| == 0 then Undef else values[0])
    else
      Normal(Or(Prop(body, "message"), Str(GenericFailure)))
  }

  /** With a field-error map whose first field lists at least one message,
      the shown message is the first one. */
  lemma FirstErrorOfFieldErrors(body: JsValue, field: string, messages: seq<JsValue>,
                                others: seq<(string, JsValue)>)
    requires Prop(body, "errors") == Obj([(field, Arr(messages))] + others)
    requires |messages| > 0
    ensures FirstError(body) == Normal(messages[0])
  {
    assert ObjectValues(Prop(body, "errors"))[0] == Arr(messages);
  }

  /** Without a (truthy) `errors`, the message is `message` when truthy and
      the generic text otherwise. */
  lemma FirstErrorWithoutFieldErrors(body: JsValue)
    requires !Truthy(Prop(body, "errors"))
    ensures FirstError(body) ==
      Normal(if Truthy(Prop(body, "message")) then Prop(body, "message") else Str(GenericFailure))
  {
  }

  /** An empty `errors` object is truthy, yet `Object.values({})[0]` is
      `undefined`, so reading its first message throws. */
  lemma FirstErrorOfEmptyErrors(body: JsValue)
    requires Prop(body, "errors") == Obj([])
    ensures FirstError(body) == Throw(TypeError)
  {
  }

  /** A field whose message list is empty yields `undefined` as the message. */
  lemma FirstErrorOfEmptyMessages(body: JsValue, field: string, others: seq<(string, JsValue)>)
    requires Prop(body, "errors") == Obj([(field, Arr([]))] + others)
    ensures FirstError(body) == Normal(Undef)
  {
    assert ObjectValues(Prop(body, "errors"))[0] == Arr([]);
  }
}
